=== FILE: README.md ===
# RealMiniAppView decision rules, in Dafny

`RealMiniAppView` is the UIKit view that hosts a mini-app: a web bundle served by an
embedded local server and shown in a WKWebView. Most of the class is glue to UIKit and WebKit.
It also holds five small decision rules. This project models each one with pure functions over
booleans, enums and strings. Two runs over event sequences are written as methods with loops. The
model proves what the view promises about each rule. Where `RealMiniAppView.swift` force-unwraps the
scheme (line 138) or the server trust (line 191), the function has a precondition; the
`URL(string:)!` at line 78 is taken to succeed and needs none. The five rules:

- **Navigation** (`navigation.dfy`): the configuration `init` fixes (which nav bar exists, whether
  it is custom, which bottom constraints exist), and the `refreshNavBar` step. The step computes the
  allowed actions, notifies the delegate and the bar, attaches or detaches the bar, and flips the two
  bottom constraints. The main invariant is that exactly one bottom anchor is active after every
  refresh. The file also models the bar's back/forward action handler.
- **SchemeGate** (`scheme_gate.dfy`): the navigation-policy decision. A missing URL is cancelled,
  `tel` is handed to the system and cancelled, and every other scheme is allowed.
- **Trust** (`trust.dfy`): the answers to authentication challenges, both from the URLSession
  delegate (used for the initial fetch) and from the WKWebView delegate.
- **Bridge** (`bridge.dfy`): the reply scripts, built by unescaped concatenation. A reader models how
  a JavaScript page parses the script. It follows the rules for single-quoted string literals: an
  unescaped quote ends the string, a backslash escapes the next character, and a line terminator is
  an error. The reader rejects U+2028 and U+2029 as well, as JavaScript did before ES2019; since ES2019 they
  are allowed in string literals, and for text holding them only the "if" half of the round trip
  below carries over. With this reader the model shows exactly when the id and payload come back
  unchanged: if and only if neither holds a quote, a backslash or a line terminator. It also shows
  how a quote or a backslash misroutes or breaks the call.
- **Lifecycle** (`lifecycle.dfy`): the server guard. `init` starts the server and fetches the entry
  page, `removeFromSuperview` stops and clears the server, and `loadWebpage` does nothing once the
  server is gone.

Platform objects become data. A bottom constraint is `None` (nil) or `Some(isActive)`. A freshly
created constraint is active. Attaching the bar is the flag `attached`. Handler calls
(`decisionHandler`, `completionHandler`, `evaluateJavaScript`, `stopServer`, the fetch,
`UIApplication.open`) are returned as lists of emitted effects, so "called exactly once" is a
statement about a list's length.

The model keeps these behaviours of the code as written:
- A URL without a scheme is force-unwrapped at line 138. It is a precondition of
  `SchemeGate.ValidateScheme`, not a fail-closed cancel.
- A server-trust challenge without a server trust is force-unwrapped at line 191. It is a
  precondition of `Trust.SessionChallenge`.
- Reply scripts are not escaped. `Bridge.QuotedIdsCollide` shows two different replies that
  produce the same script. The page reads that script as a call for the shorter id, so the reply is
  routed to the wrong message. `Bridge.PayloadQuoteEndsArgument` shows that a quote in a payload
  closes the argument's literal early, so the page never receives the payload as sent. What follows
  the quote is script text outside any literal. Depending on the payload it is a syntax error
  (nothing is called), extra arguments, or injected code.
- Replies are not deduplicated by message id. `Bridge.DeliverAll` evaluates one script per reply,
  including repeats.
- Under `Never`, a history with somewhere to go is not "shown". There is no bar in that case, so
  only the standalone anchor is active.

## Model

| member | source | states |
|---|---|---|
| Navigation.Init | MiniApp/Classes/Display/RealMiniAppView.swift:36-60 | a bar exists iff visibility is not never; it is custom iff visibility is not never and a navigation view was given; the with-nav-bar constraint exists only for the default bar, and is then the active anchor although the bar is not yet attached; a custom bar leaves the standalone anchor active; none is active for never; there is no delegate iff none was given, or the given delegate is the missing navigation view; the bar is the delegate only when the given view is both |
| Navigation.AllowedActions | MiniApp/Classes/Display/RealMiniAppView.swift:90-96 | back is offered iff canGoBack or always, forward iff canGoForward or always; no duplicates; back precedes forward |
| Navigation.Refresh | MiniApp/Classes/Display/RealMiniAppView.swift:89-123 | the delegate gets the action list on every call when there is one; the bar gets it iff it exists, is not the delegate, and the show branch is taken; configuration is unchanged; from any init-shaped state exactly one anchor is active afterwards, the with-nav-bar anchor iff the default bar is attached; the bar is attached iff visibility is not never and the list is non-empty |
| Navigation.RefreshAllKeepsOneAnchor | MiniApp/Classes/Display/RealMiniAppView.swift:98-121 | over any non-empty sequence of refreshes the configuration is preserved and exactly one anchor is active at the end |
| Navigation.InitThenRefreshesKeepOneAnchor | MiniApp/Classes/Display/RealMiniAppView.swift:36-123 | for every configuration init can produce, any non-empty run of refreshes leaves exactly one anchor active |
| Navigation.AlwaysAttached | MiniApp/Classes/Display/RealMiniAppView.swift:91-117 | under always both actions are offered and the bar is attached after every refresh |
| Navigation.NeverAttached | MiniApp/Classes/Display/RealMiniAppView.swift:98-121 | under never the bar is never attached or notified and the standalone anchor is active |
| Navigation.AutoWithoutHistoryHides | MiniApp/Classes/Display/RealMiniAppView.swift:98-101 | under auto with no history nothing is offered, the bar is detached and the standalone anchor is active |
| Navigation.TriggerAction | MiniApp/Classes/Display/RealMiniAppView.swift:166-177 | the handler answers true iff the navigation changed the history, i.e. it answers the capability before the action |
| Navigation.BackThenForward | MiniApp/Classes/Display/RealMiniAppView.swift:166-177 | a successful back followed by forward answers true and restores the history |
| Navigation.AnswerIsCapabilityBefore | MiniApp/Classes/Display/RealMiniAppView.swift:166-177 | with one entry behind, back answers true although going back is impossible afterwards |
| SchemeGate.ValidateScheme | MiniApp/Classes/Display/RealMiniAppView.swift:137-146 | the decision handler is called exactly once, last; cancel iff the scheme is tel; the URL is opened externally, first and only then, exactly when the scheme is tel |
| SchemeGate.DecidePolicy | MiniApp/Classes/Display/RealMiniAppView.swift:129-135 | a missing URL gives a single cancel and no external open; a present URL is decided by the scheme check |
| SchemeGate.DecisionTable | MiniApp/Classes/Display/RealMiniAppView.swift:129-146 | exactly one decision, as the last effect; allow iff a URL with a non-tel scheme; an external open happens iff the scheme is tel, is of the request's own URL, and comes before the cancel |
| SchemeGate.ExampleDecisions | MiniApp/Classes/Display/RealMiniAppView.swift:129-146 | tel is opened and then cancelled, https is allowed, a missing URL is cancelled |
| Trust.SessionChallenge | MiniApp/Classes/Display/RealMiniAppView.swift:185-203 | the completion runs once; server trust gives useCredential with a trust credential; otherwise a previous failure cancels with nil, a stored default is used, or default handling with nil; useCredential always carries a credential |
| Trust.WebViewChallenge | MiniApp/Classes/Display/RealMiniAppView.swift:205-212 | the completion runs once, always with useCredential; a credential is present iff the challenge carries a server trust, and it is built from that trust |
| Trust.SessionUsesOnlyKnownCredentials | MiniApp/Classes/Display/RealMiniAppView.swift:185-203 | useCredential iff server trust or a first attempt with a stored default, which is then the credential used; cancel iff not server trust and a previous failure |
| Trust.DelegatesAgreeOnServerTrust | MiniApp/Classes/Display/RealMiniAppView.swift:185-212 | on a server-trust challenge the session and web-view delegates answer identically |
| Trust.WebViewMayUseNilCredential | MiniApp/Classes/Display/RealMiniAppView.swift:205-212 | the web-view delegate answers useCredential with nil where the session delegate would cancel |
| Bridge.CallScript | MiniApp/Classes/Display/RealMiniAppView.swift:157 | the reply script is the callback name, `('`, the id verbatim, `','`, the argument verbatim and `')`, with nothing escaped |
| Bridge.CallScriptParses | MiniApp/Classes/Display/RealMiniAppView.swift:156-162 | the page reads the script as exactly one call with that id and argument, verbatim, if and only if neither holds a quote, a backslash or a line terminator |
| Bridge.PayloadQuoteEndsArgument | MiniApp/Classes/Display/RealMiniAppView.swift:156-162 | a quote in the payload closes the argument's literal: the page's second literal is the text before the quote, and the script is not the two-argument call that was sent |
| Bridge.BackslashIdBreaksCall | MiniApp/Classes/Display/RealMiniAppView.swift:156-162 | an id ending in a backslash escapes its closing quote, so the page never reads that id back |
| Bridge.QuotedIdsCollide | MiniApp/Classes/Display/RealMiniAppView.swift:156-162 | without escaping, moving a quote-comma-quote between id and payload gives the same script; the page reads its first literals as the shorter id and the middle text, so the reply is misrouted, and the script is not the two-argument call that was sent |
| Bridge.DidReceiveResponse | MiniApp/Classes/Display/RealMiniAppView.swift:156-158 | exactly one script is evaluated, the success callback applied to the quoted id and response as written; the page reads back both when they are plain |
| Bridge.DidReceiveError | MiniApp/Classes/Display/RealMiniAppView.swift:160-162 | exactly one script is evaluated, the error callback applied to the quoted id and message as written; the page reads back both when they are plain |
| Bridge.ErrorMirrorsSuccess | MiniApp/Classes/Display/RealMiniAppView.swift:156-162 | the error script is the success script with the error callback in place of the success callback |
| Bridge.DeliverAll | MiniApp/Classes/Display/RealMiniAppView.swift:155-163 | a run of replies evaluates exactly one script per reply, in order, with no deduplication by id; each is the unescaped call of its outcome's callback, and reads back as sent when id and payload are plain |
| Lifecycle.FetchUrl | MiniApp/Classes/Display/RealMiniAppView.swift:78 | the fetch URL is the server URL, a slash, the version id and /index.html, in that order and nothing else |
| Lifecycle.FetchUrlDeterminesVersion | MiniApp/Classes/Display/RealMiniAppView.swift:78 | for one server URL, equal fetch URLs mean equal version ids |
| Lifecycle.LoadWebpage | MiniApp/Classes/Display/RealMiniAppView.swift:73-87 | no effect without a server; otherwise exactly one fetch, of the entry page of the version on that server |
| Lifecycle.Init | MiniApp/Classes/Display/RealMiniAppView.swift:31-51 | the server is created and started securely for the app and version, then the entry page is fetched from it |
| Lifecycle.RemoveFromSuperview | MiniApp/Classes/Display/RealMiniAppView.swift:67-71 | the server is stopped iff one is present, and is cleared afterwards |
| Lifecycle.RemoveTwiceStopsOnce | MiniApp/Classes/Display/RealMiniAppView.swift:67-71 | a second removal emits nothing; two removals stop the server at most once |
| Lifecycle.NoFetchAfterRemove | MiniApp/Classes/Display/RealMiniAppView.swift:67-76 | after a removal, loading any version fetches nothing |
| Lifecycle.RunningServerStopsOnce | MiniApp/Classes/Display/RealMiniAppView.swift:67-76 | with a server present, any run of events calls stopServer exactly once if it holds a removal and never otherwise |
| Lifecycle.InitThenEventsStopOnce | MiniApp/Classes/Display/RealMiniAppView.swift:31-71 | init itself stops nothing; from the state init leaves, any run of events stops the server once iff it holds a removal |
| Lifecycle.Run | MiniApp/Classes/Display/RealMiniAppView.swift:67-87 | over any event run: the first removal with a server present stops it, and no other event does; no effect after a removal; before it, each load fetches the entry page of its version |

## Left out

- UIKit layout: `addSubview`, `removeFromSuperview` on the bar, and the `layoutAttach*` helpers are not part of this model. Their results are the `attached` flag and the constraint flags. The bar starts detached, and a newly created constraint is assumed active.
- WebKit page loading, bridging-script injection, message-handler registration, `deinit` cleanup and the `miniAppNavigation(delegate:)` registration are calls into code not shown.
- The URLSession fetch, its `DispatchQueue.main` completion and the race with teardown are I/O and concurrency. `Fetch` only records the request.
- `URL(string:)!` on the fetch URL is assumed to succeed, since URL parsing is not shown.
- `LocalServer` internals are not part of this model: the server URL is an input, and starting is assumed to give a server.
- `Bridge.Unescape`: the page reader does not model hexadecimal, Unicode or octal escapes, or line continuations. It reads them as errors. The round trip holds only for text with no backslash, and any escape reads back as fewer characters than it is written with, so this does not affect it.
- `MiniAppSupportedSchemes` is not part of this model. Only `tel` is seen, matched as the exact raw value "tel".
- The callback names in `Constants` are not part of this model and are inputs.
- The SecTrust exception calls and `UIApplication.open` are not modelled. The external open is recorded as an effect.
- `Navigation.Go`: WebKit's back-forward list is reduced to two entry counts. That is enough to say what the action handler answers, but not which page is loaded.
- `getMiniAppView` and `required init?(coder:)` return `self` and `nil`, and carry no decision.

=== FILE: bridge.dfy ===
/**
 * The bridge replies of RealMiniAppView (`didReceiveScriptMessageResponse` and
 * `didReceiveScriptMessageError`): each builds one JavaScript call by plain
 * concatenation and hands it to the web view. Nothing is escaped.
 */
module Bridge {
  import opened Optional

  /** The names of the page's success and error callbacks (Constants.javascriptSuccessCallback / ...ErrorCallback). */
  datatype Callbacks = Callbacks(success: string, error: string)

  /** The host's answer to one bridge message. */
  datatype Outcome = Success(response: string) | Error(errorMessage: string)

  datatype Reply = Reply(messageId: string, outcome: Outcome)

  const Quote: char := '\''

  /**
   * A call of `callback` with the id and the argument pasted, unescaped, between
   * single quotes and separated by a comma.
   */
  function CallScript(callback: string, messageId: string, argument: string): (r: string)
    ensures |r| == |callback| + |messageId| + |argument| + 7
    ensures r[..|callback| + 2] == callback + "('"
    ensures r[|callback| + 2..|callback| + 2 + |messageId|] == messageId
    ensures r[|callback| + 2 + |messageId|..|callback| + 5 + |messageId|] == "','"
    ensures r[|callback| + 5 + |messageId|..|r| - 2] == argument
    ensures r[|r| - 2..] == "')"
  {
    var head := callback + "('" + messageId;
    assert (head + "'," + "'" + argument)[..|head|] == head;
    callback + "('" + messageId + "'," + "'" + argument + "')"
  }

  /** The script evaluated for one reply, with the callback its outcome selects. */
  function ReplyScript(callbacks: Callbacks, reply: Reply): string
  {
    match reply.outcome
    case Success(response) => CallScript(callbacks.success, reply.messageId, response)
    case Error(message) => CallScript(callbacks.error, reply.messageId, message)
  }

  const Backslash: char := '\\'

  /** ECMAScript line terminators: none may appear inside a string literal. */
  predicate IsLineTerminator(c: char) {
    c == '\n' || c == '\r' || c == 0x2028 as char || c == 0x2029 as char
  }

  /** A character that stands for itself inside a single-quoted JavaScript string. */
  predicate PlainChar(c: char) {
    c != Quote && c != Backslash && !IsLineTerminator(c)
  }

  /** A string that can be placed between single quotes unchanged. */
  predicate Plain(s: string) {
    forall i :: 0 <= i < |s| ==> PlainChar(s[i])
  }

  /**
   * The character a backslash escape `\c` stands for. Hexadecimal, Unicode and
   * octal escapes and line continuations are not modelled and read as `None`.
   */
  function Unescape(c: char): Option<char>
  {
    if c == 'n' then Some('\n')
    else if c == 't' then Some('\t')
    else if c == 'r' then Some('\r')
    else if c == 'b' then Some(8 as char)
    else if c == 'f' then Some(12 as char)
    else if c == 'v' then Some(11 as char)
    else if c == 'x' || c == 'u' || ('0' <= c <= '9') || IsLineTerminator(c) then None
    else Some(c)
  }

  /**
   * Reads the body of a single-quoted JavaScript string literal whose opening
   * quote has been consumed: the value up to the first unescaped quote, and what
   * follows that quote. `None` when the literal is not closed or holds a line terminator.
   */
  function ReadQuoted(s: string): (r: Option<(string, string)>)
    ensures r.Some? ==> |r.value.1| < |s| && s[|s| - |r.value.1|..] == r.value.1
    ensures r.Some? ==> |r.value.0| < |s| - |r.value.1|
    decreases |s|
  {
    if |s| == 0 then None
    else if s[0] == Quote then Some(([], s[1..]))
    else if IsLineTerminator(s[0]) then None
    else if s[0] == Backslash then
      if |s| < 2 then None
      else
        match Unescape(s[1])
        case None => None
        case Some(c) =>
          match ReadQuoted(s[2..])
          case None => None
          case Some((v, rest)) => Some(([c] + v, rest))
    else
      match ReadQuoted(s[1..])
      case None => None
      case Some((v, rest)) => Some(([s[0]] + v, rest))
  }

  /** After the first argument's closing quote: a comma, then the second quoted argument. */
  function ReadSecond(rest: string): (r: Option<(string, string)>)
    ensures r.Some? ==> |r.value.1| < |rest|
  {
    if |rest| >= 2 && rest[..2] == ",'" then ReadQuoted(rest[2..]) else None
  }

  /** After `callback('`: the two argument values and the text after the second closing quote. */
  function ReadArguments(body: string): (r: Option<(string, string, string)>)
    ensures r.Some? ==> |r.value.2| < |body|
  {
    match ReadQuoted(body)
    case None => None
    case Some((id, rest)) =>
      match ReadSecond(rest)
      case None => None
      case Some((argument, tail)) => Some((id, argument, tail))
  }

  /**
   * How the page reads the start of a script that calls `callback` with two
   * single-quoted arguments: the two argument values and the text after the
   * second argument's closing quote.
   */
  function ReadCall(script: string, callback: string): (r: Option<(string, string, string)>)
    ensures r.Some? ==> |script| > |callback| + 2 && script[..|callback|] == callback
  {
    var open := callback + "('";
    if |script| >= |open| && script[..|open|] == open then ReadArguments(script[|open|..]) else None
  }

  /**
   * The two arguments of the script when it is exactly the two-argument call that
   * was sent: `callback`, two string literals and `)` right after the second one.
   * `None` when the page would see anything else after the second literal (a syntax
   * error, more arguments or further code) or cannot read the literals at all.
   */
  function ParseCall(script: string, callback: string): (r: Option<(string, string)>)
    ensures r.Some? ==> |script| > |callback| + 2 && script[..|callback|] == callback
  {
    match ReadCall(script, callback)
    case None => None
    case Some((id, argument, tail)) => if tail == ")" then Some((id, argument)) else None
  }

  lemma {:induction false} ReadPlainLiteral(s: string, rest: string)
    requires Plain(s)
    ensures ReadQuoted(s + [Quote] + rest) == Some((s, rest))
    decreases |s|
  {
    var t := s + [Quote] + rest;
    if |s| == 0 {
      assert t == [Quote] + rest;
    } else {
      assert t[0] == s[0] && PlainChar(s[0]);
      assert t[1..] == s[1..] + [Quote] + rest;
      assert Plain(s[1..]) by {
        forall i | 0 <= i < |s[1..]| ensures PlainChar(s[1..][i]) {
          assert s[1..][i] == s[i + 1];
        }
      }
      ReadPlainLiteral(s[1..], rest);
      assert [s[0]] + s[1..] == s;
    }
  }

  /** Reading a call of `callback` starts right after its opening `('`. */
  lemma ReadCallAfterOpen(callback: string, body: string)
    ensures ReadCall(callback + "('" + body, callback) == ReadArguments(body)
  {
    var open := callback + "('";
    assert (open + body)[..|open|] == open;
    assert (open + body)[|open|..] == body;
  }

  /** A plain first argument is read verbatim, and reading continues after its closing quote. */
  lemma ReadPlainFirst(id: string, rest: string)
    requires Plain(id)
    ensures ReadArguments(id + [Quote] + rest) ==
      match ReadSecond(rest)
      case None => None
      case Some((argument, tail)) => Some((id, argument, tail))
  {
    ReadPlainLiteral(id, rest);
  }

  /** A plain second argument is read verbatim, up to its closing quote. */
  lemma ReadPlainSecond(argument: string, tail: string)
    requires Plain(argument)
    ensures ReadSecond(",'" + argument + [Quote] + tail) == Some((argument, tail))
  {
    var rest := ",'" + argument + [Quote] + tail;
    assert rest[..2] == ",'";
    assert rest[2..] == argument + [Quote] + tail;
    ReadPlainLiteral(argument, tail);
  }

  /** The script of a reply, split as the reader meets it. */
  lemma CallScriptSplit(callback: string, messageId: string, argument: string)
    ensures CallScript(callback, messageId, argument)
         == callback + "('" + (messageId + [Quote] + (",'" + argument + [Quote] + ")"))
  {
  }

  /**
   * A literal's value is at least one character shorter than the text it consumes
   * (the closing quote), and exactly one shorter only when it holds no escape: the
   * value is then plain and followed directly by the closing quote.
   */
  lemma {:induction false} ReadQuotedTight(s: string)
    requires ReadQuoted(s).Some?
    ensures |ReadQuoted(s).value.0| + 1 <= |s| - |ReadQuoted(s).value.1|
    ensures |ReadQuoted(s).value.0| + 1 == |s| - |ReadQuoted(s).value.1| ==>
      Plain(ReadQuoted(s).value.0) && s == ReadQuoted(s).value.0 + [Quote] + ReadQuoted(s).value.1
    decreases |s|
  {
    var v, rest := ReadQuoted(s).value.0, ReadQuoted(s).value.1;
    if s[0] == Quote {
      assert s == [] + [Quote] + s[1..];
    } else if s[0] == Backslash {
      var t := s[2..];
      ReadQuotedTight(t);
      assert v == [Unescape(s[1]).value] + ReadQuoted(t).value.0;
      assert rest == ReadQuoted(t).value.1;
    } else {
      var t := s[1..];
      ReadQuotedTight(t);
      var v' := ReadQuoted(t).value.0;
      assert v == [s[0]] + v';
      assert rest == ReadQuoted(t).value.1;
      if |v| + 1 == |s| - |rest| {
        assert PlainChar(s[0]);
        assert s == [s[0]] + t;
        forall i | 0 <= i < |v| ensures PlainChar(v[i]) {
          if i > 0 { assert v[i] == v'[i - 1]; }
        }
      }
    }
  }

  /** Only a plain id and argument can be read back as sent. */
  lemma ReadBackOnlyIfPlain(callback: string, messageId: string, argument: string)
    requires ParseCall(CallScript(callback, messageId, argument), callback) == Some((messageId, argument))
    ensures Plain(messageId) && Plain(argument)
  {
    var body := messageId + [Quote] + (",'" + argument + [Quote] + ")");
    CallScriptSplit(callback, messageId, argument);
    ReadCallAfterOpen(callback, body);
    var rest := ReadQuoted(body).value.1;
    ReadQuotedTight(body);
    ReadQuotedTight(rest[2..]);
  }

  /**
   * The page reads back exactly the id and the argument, as the one two-argument
   * call that was sent, if and only if neither holds a quote, a backslash or a
   * line terminator.
   */
  lemma CallScriptParses(callback: string, messageId: string, argument: string)
    ensures ParseCall(CallScript(callback, messageId, argument), callback) == Some((messageId, argument))
        <==> Plain(messageId) && Plain(argument)
  {
    if Plain(messageId) && Plain(argument) {
      PlainCallScriptParses(callback, messageId, argument);
    } else if ParseCall(CallScript(callback, messageId, argument), callback) == Some((messageId, argument)) {
      ReadBackOnlyIfPlain(callback, messageId, argument);
    }
  }

  /** A plain id and argument are read back as sent. */
  lemma PlainCallScriptParses(callback: string, messageId: string, argument: string)
    requires Plain(messageId) && Plain(argument)
    ensures ParseCall(CallScript(callback, messageId, argument), callback) == Some((messageId, argument))
  {
    CallScriptSplit(callback, messageId, argument);
    ReadCallAfterOpen(callback, messageId + [Quote] + (",'" + argument + [Quote] + ")"));
    ReadPlainFirst(messageId, ",'" + argument + [Quote] + ")");
    ReadPlainSecond(argument, ")");
  }

  /** A plain prefix is read verbatim and reading goes on after it. */
  lemma {:induction false} ReadPlainPrefix(s: string, t: string)
    requires Plain(s)
    ensures ReadQuoted(s + t) ==
      match ReadQuoted(t)
      case None => None
      case Some((v, rest)) => Some((s + v, rest))
    decreases |s|
  {
    if |s| > 0 {
      assert (s + t)[0] == s[0] && PlainChar(s[0]);
      assert (s + t)[1..] == s[1..] + t;
      assert Plain(s[1..]) by {
        forall i | 0 <= i < |s[1..]| ensures PlainChar(s[1..][i]) {
          assert s[1..][i] == s[i + 1];
        }
      }
      ReadPlainPrefix(s[1..], t);
      assert [s[0]] + s[1..] == s;
      match ReadQuoted(t)
      case None =>
      case Some((v, rest)) =>
        assert [s[0]] + (s[1..] + v) == s + v;
    } else {
      assert s + t == t;
      match ReadQuoted(t)
      case None =>
      case Some((v, rest)) =>
        assert s + v == v;
    }
  }

  /**
   * Nothing is escaped, so a quote in the payload closes the argument's literal
   * early and the page never receives the payload as sent. The text after the
   * quote is script outside any literal: depending on the payload a syntax error
   * (nothing is called), further arguments, or injected code. Either way the
   * script is not the two-argument call that was sent.
   */
  lemma PayloadQuoteEndsArgument(callback: string, messageId: string, before: string, after: string)
    requires Plain(messageId) && Plain(before)
    ensures ReadCall(CallScript(callback, messageId, before + [Quote] + after), callback)
         == Some((messageId, before, after + "')"))
    ensures ParseCall(CallScript(callback, messageId, before + [Quote] + after), callback) == None
  {
    var argument := before + [Quote] + after;
    var rest := ",'" + argument + [Quote] + ")";
    var tail := after + "')";
    assert rest == ",'" + before + [Quote] + tail;
    assert ReadSecond(rest) == Some((before, tail)) by {
      ReadPlainSecond(before, tail);
    }
    assert ReadArguments(messageId + [Quote] + rest) == Some((messageId, before, tail)) by {
      ReadPlainFirst(messageId, rest);
    }
    assert ReadCall(CallScript(callback, messageId, argument), callback) == Some((messageId, before, tail)) by {
      CallScriptSplit(callback, messageId, argument);
      ReadCallAfterOpen(callback, messageId + [Quote] + rest);
    }
    assert |tail| >= 2;
  }

  /**
   * Nothing is escaped, so a quote in the id lets two different replies produce
   * the same script. The page reads its first two literals as id `first` and
   * payload `second`: the reply meant for message `first','second` is routed to
   * message `first`, and the script is not the two-argument call that was sent.
   */
  lemma QuotedIdsCollide(callback: string, first: string, second: string, third: string)
    requires Plain(first) && Plain(second)
    ensures CallScript(callback, first + "','" + second, third) == CallScript(callback, first, second + "','" + third)
    ensures ReadCall(CallScript(callback, first + "','" + second, third), callback)
         == Some((first, second, ",'" + third + "')"))
    ensures ParseCall(CallScript(callback, first, second + "','" + third), callback) == None
  {
    var payload, after := second + "','" + third, ",'" + third;
    MovedQuoteSameScript(callback, first, second, third);
    assert payload == second + [Quote] + after;
    PayloadQuoteEndsArgument(callback, first, second, after);
    assert ReadCall(CallScript(callback, first, payload), callback) == Some((first, second, after + "')"));
    assert after + "')" == ",'" + third + "')";
  }

  /** Moving a quote-comma-quote from the end of the id to the start of the payload leaves the script unchanged. */
  lemma MovedQuoteSameScript(callback: string, first: string, second: string, third: string)
    ensures CallScript(callback, first + "','" + second, third) == CallScript(callback, first, second + "','" + third)
  {
    var q, sep, close := [Quote], ",'", ")";
    var id, payload := first + "','" + second, second + "','" + third;
    assert id == first + q + sep + second by { assert "','" == q + sep; }
    assert payload == second + q + sep + third by { assert "','" == q + sep; }
    var flat := first + q + sep + second + q + sep + third + q + close;
    assert id + q + (sep + third + q + close) == flat;
    assert first + q + (sep + payload + q + close) == flat;
    CallScriptSplit(callback, id, third);
    CallScriptSplit(callback, first, payload);
  }

  /** `\'` stands for a quote inside the literal, so the next quote closes it instead. */
  lemma ReadEscapedQuote(tail: string)
    ensures ReadQuoted([Backslash, Quote, ',', Quote] + tail) == Some(([Quote, ','], tail))
  {
    var escaped := [Backslash, Quote, ',', Quote] + tail;
    assert escaped[0] == Backslash && escaped[1] == Quote;
    assert Unescape(Quote) == Some(Quote);
    assert escaped[2..] == [','] + [Quote] + tail;
    assert Plain([',']);
    ReadPlainLiteral([','], tail);
    assert [Quote] + [','] == [Quote, ','];
  }

  /** The script of a reply whose id ends in a backslash, split as the reader meets it. */
  lemma BackslashScriptSplit(callback: string, messageId: string, argument: string)
    ensures CallScript(callback, messageId + [Backslash], argument)
         == callback + "('" + (messageId + ([Backslash, Quote, ',', Quote] + (argument + [Quote] + ")")))
  {
    var tail := argument + [Quote] + ")";
    CallScriptSplit(callback, messageId + [Backslash], argument);
    assert ",'" + argument + [Quote] + ")" == ",'" + tail;
    assert ",'" == [',', Quote];
    assert messageId + [Backslash] + [Quote] + (",'" + tail)
        == messageId + ([Backslash, Quote, ',', Quote] + tail);
  }

  /** A trailing backslash in the id escapes its closing quote, so the id is not read back. */
  lemma BackslashIdBreaksCall(callback: string, messageId: string, argument: string)
    requires Plain(messageId)
    ensures ReadCall(CallScript(callback, messageId + [Backslash], argument), callback).Some? ==>
      ReadCall(CallScript(callback, messageId + [Backslash], argument), callback).value.0 == messageId + [Quote, ',']
    ensures ParseCall(CallScript(callback, messageId + [Backslash], argument), callback)
         != Some((messageId + [Backslash], argument))
  {
    var tail := argument + [Quote] + ")";
    var escaped := [Backslash, Quote, ',', Quote] + tail;
    ReadEscapedQuote(tail);
    ReadPlainPrefix(messageId, escaped);
    BackslashScriptSplit(callback, messageId, argument);
    ReadCallAfterOpen(callback, messageId + escaped);
    assert (messageId + [Quote, ','])[|messageId|] != (messageId + [Backslash])[|messageId|];
  }

  /**
   * `didReceiveScriptMessageResponse`: exactly one script, the call of the success
   * callback with the id and the response; the page reads back both when they are plain.
   */
  function DidReceiveResponse(callbacks: Callbacks, messageId: string, response: string): (scripts: seq<string>)
    ensures scripts == [CallScript(callbacks.success, messageId, response)]
    ensures Plain(messageId) && Plain(response) ==>
      ParseCall(scripts[0], callbacks.success) == Some((messageId, response))
  {
    CallScriptParses(callbacks.success, messageId, response);
    [ReplyScript(callbacks, Reply(messageId, Success(response)))]
  }

  /**
   * `didReceiveScriptMessageError`: exactly one script, the call of the error
   * callback with the id and the message; the page reads back both when they are plain.
   */
  function DidReceiveError(callbacks: Callbacks, messageId: string, errorMessage: string): (scripts: seq<string>)
    ensures scripts == [CallScript(callbacks.error, messageId, errorMessage)]
    ensures Plain(messageId) && Plain(errorMessage) ==>
      ParseCall(scripts[0], callbacks.error) == Some((messageId, errorMessage))
  {
    CallScriptParses(callbacks.error, messageId, errorMessage);
    [ReplyScript(callbacks, Reply(messageId, Error(errorMessage)))]
  }

  /** The error script is the success script with the other callback and the error text. */
  lemma ErrorMirrorsSuccess(callbacks: Callbacks, messageId: string, text: string)
    ensures DidReceiveError(callbacks, messageId, text)
         == DidReceiveResponse(Callbacks(callbacks.error, callbacks.success), messageId, text)
  {
  }

  /** The callback a reply is addressed to. */
  function Target(callbacks: Callbacks, reply: Reply): string
  {
    if reply.outcome.Success? then callbacks.success else callbacks.error
  }

  /** The argument a reply carries. */
  function Payload(reply: Reply): string
  {
    match reply.outcome
    case Success(response) => response
    case Error(message) => message
  }

  /**
   * Delivering a run of replies: each reply evaluates exactly one script, in order,
   * and nothing is deduplicated by message id.
   */
  method DeliverAll(callbacks: Callbacks, replies: seq<Reply>) returns (scripts: seq<string>)
    ensures |scripts| == |replies|
    ensures forall i :: 0 <= i < |replies| ==>
      scripts[i] == CallScript(Target(callbacks, replies[i]), replies[i].messageId, Payload(replies[i]))
    ensures forall i :: 0 <= i < |replies| && Plain(replies[i].messageId) && Plain(Payload(replies[i])) ==>
      ParseCall(scripts[i], Target(callbacks, replies[i])) == Some((replies[i].messageId, Payload(replies[i])))
  {
    scripts := [];
    var k := 0;
    while k < |replies|
      invariant 0 <= k <= |replies|
      invariant |scripts| == k
      invariant forall i :: 0 <= i < k ==>
        scripts[i] == CallScript(Target(callbacks, replies[i]), replies[i].messageId, Payload(replies[i]))
    {
      var reply := replies[k];
      var evaluated := match reply.outcome
        case Success(response) => DidReceiveResponse(callbacks, reply.messageId, response)
        case Error(message) => DidReceiveError(callbacks, reply.messageId, message);
      var script := CallScript(Target(callbacks, reply), reply.messageId, Payload(reply));
      assert evaluated == [script];
      scripts := scripts + evaluated;
      k := k + 1;
    }
    forall i | 0 <= i < |replies|
      ensures Plain(replies[i].messageId) && Plain(Payload(replies[i])) ==>
        ParseCall(scripts[i], Target(callbacks, replies[i])) == Some((replies[i].messageId, Payload(replies[i])))
    {
      if Plain(replies[i].messageId) && Plain(Payload(replies[i])) {
        PlainCallScriptParses(Target(callbacks, replies[i]), replies[i].messageId, Payload(replies[i]));
      }
    }
  }
}

=== FILE: lifecycle.dfy ===
/**
 * The local-server guard of RealMiniAppView: the server is started in `init`,
 * stopped and cleared by `removeFromSuperview`, and `loadWebpage` fetches the
 * entry page only while a server is present. The server itself is opaque: it is
 * represented by the base URL it reports.
 */
module Lifecycle {
  import opened Optional

  /** The calls the view makes on the server and the network. */
  datatype Effect =
    | StartServer(appId: string, versionId: string, isSecure: bool)
    | StopServer
    | Fetch(url: string)

  /** `localServer`: the running server's URL string, or nil once removed. */
  datatype ServerSlot = ServerSlot(server: Option<string>)

  /** The calls on the view that touch the server. */
  datatype Event = Remove | Load(versionId: string)

  const IndexPage: string := "/index.html"

  /** The entry page of a version: the server URL, a slash, the version id and `/index.html`. */
  function FetchUrl(serverUrl: string, versionId: string): (u: string)
    ensures |u| == |serverUrl| + |versionId| + 12
    ensures u[..|serverUrl|] == serverUrl
    ensures u[|serverUrl|] == '/'
    ensures u[|serverUrl| + 1..|serverUrl| + 1 + |versionId|] == versionId
    ensures u[|u| - 11..] == IndexPage
  {
    serverUrl + "/" + versionId + IndexPage
  }

  /** For one server, different versions are fetched from different URLs. */
  lemma FetchUrlDeterminesVersion(serverUrl: string, v1: string, v2: string)
    requires FetchUrl(serverUrl, v1) == FetchUrl(serverUrl, v2)
    ensures v1 == v2
  {
  }

  /** `loadWebpage`: nothing without a server, otherwise one fetch of the entry page. */
  function LoadWebpage(l: ServerSlot, versionId: string): (effects: seq<Effect>)
    ensures l.server.None? ==> effects == []
    ensures l.server.Some? ==> effects == [Fetch(FetchUrl(l.server.value, versionId))]
  {
    match l.server
    case None => []
    case Some(serverUrl) =>
      [Fetch(FetchUrl(serverUrl, versionId))]
  }

  /**
   * The server part of `init`: create and start the server (always secure), then
   * load the page for the version from it. `serverUrl` is the URL the new server reports.
   */
  function Init(appId: string, versionId: string, serverUrl: string): (r: (ServerSlot, seq<Effect>))
    ensures r.0.server == Some(serverUrl)
    ensures |r.1| == 2
    ensures r.1[0] == StartServer(appId, versionId, true)
    ensures r.1[1].Fetch? && r.1[1] == LoadWebpage(r.0, versionId)[0]
  {
    var l := ServerSlot(Some(serverUrl));
    (l, [StartServer(appId, versionId, true)] + LoadWebpage(l, versionId))
  }

  /** `removeFromSuperview`: stop the server if there is one, then drop it. */
  function RemoveFromSuperview(l: ServerSlot): (r: (ServerSlot, seq<Effect>))
    ensures r.0.server.None?
    ensures r.1 == (if l.server.Some? then [StopServer] else [])
  {
    (ServerSlot(None), if l.server.Some? then [StopServer] else [])
  }

  /** A second removal stops nothing and leaves the view without a server. */
  lemma RemoveTwiceStopsOnce(l: ServerSlot)
    ensures var first := RemoveFromSuperview(l);
      && RemoveFromSuperview(first.0) == (first.0, [])
      && first.1 + RemoveFromSuperview(first.0).1 == (if l.server.Some? then [StopServer] else [])
  {
  }

  /** After a removal, loading any version fetches nothing. */
  lemma NoFetchAfterRemove(l: ServerSlot, versionId: string)
    ensures LoadWebpage(RemoveFromSuperview(l).0, versionId) == []
  {
  }

  /** One event on the view: its new lifecycle and the effects it emits. */
  function Step(l: ServerSlot, e: Event): (r: (ServerSlot, seq<Effect>))
    ensures e.Load? ==> r.0 == l
    ensures e.Remove? ==> r.0.server.None?
  {
    match e
    case Remove => RemoveFromSuperview(l)
    case Load(versionId) => (l, LoadWebpage(l, versionId))
  }

  /** All effects of a run of events, in order. */
  function Effects(l: ServerSlot, events: seq<Event>): seq<Effect>
    decreases |events|
  {
    if |events| == 0 then []
    else
      var next := Step(l, events[0]);
      next.1 + Effects(next.0, events[1..])
  }

  /** The number of `stopServer` calls among `effects`. */
  function Stops(effects: seq<Effect>): nat
    decreases |effects|
  {
    if |effects| == 0 then 0
    else (if effects[0] == StopServer then 1 else 0) + Stops(effects[1..])
  }

  lemma {:induction false} StopsAppend(a: seq<Effect>, b: seq<Effect>)
    ensures Stops(a + b) == Stops(a) + Stops(b)
    decreases |a|
  {
    if |a| > 0 {
      assert (a + b)[0] == a[0];
      assert (a + b)[1..] == a[1..] + b;
      StopsAppend(a[1..], b);
    } else {
      assert a + b == b;
    }
  }

  /** Without a server no event stops anything. */
  lemma {:induction false} NoServerNoStops(events: seq<Event>)
    ensures Stops(Effects(ServerSlot(None), events)) == 0
    decreases |events|
  {
    if |events| > 0 {
      var next := Step(ServerSlot(None), events[0]);
      assert next.0 == ServerSlot(None) && next.1 == [];
      NoServerNoStops(events[1..]);
      assert Effects(ServerSlot(None), events) == Effects(ServerSlot(None), events[1..]);
    }
  }

  /** With a server present, a run stops it once if it holds a removal and never otherwise. */
  lemma {:induction false} RunningServerStopsOnce(serverUrl: string, events: seq<Event>)
    ensures Stops(Effects(ServerSlot(Some(serverUrl)), events)) == (if Remove in events then 1 else 0)
    decreases |events|
  {
    if |events| > 0 {
      var l := ServerSlot(Some(serverUrl));
      var next := Step(l, events[0]);
      StopsAppend(next.1, Effects(next.0, events[1..]));
      assert Remove in events <==> events[0] == Remove || Remove in events[1..] by {
        assert events == [events[0]] + events[1..];
      }
      if events[0] == Remove {
        assert next.1 == [StopServer] && next.0 == ServerSlot(None);
        NoServerNoStops(events[1..]);
      } else {
        assert next.0 == l && Stops(next.1) == 0;
        RunningServerStopsOnce(serverUrl, events[1..]);
      }
    }
  }

  /**
   * From the state `init` leaves, any run of events stops the server exactly once
   * if it holds a removal and never otherwise.
   */
  lemma InitThenEventsStopOnce(appId: string, versionId: string, serverUrl: string, events: seq<Event>)
    ensures Stops(Init(appId, versionId, serverUrl).1) == 0
    ensures Stops(Effects(Init(appId, versionId, serverUrl).0, events)) == (if Remove in events then 1 else 0)
  {
    var started := Init(appId, versionId, serverUrl).1;
    assert started[1..][1..] == [];
    assert Stops(started[1..]) == 0;
    RunningServerStopsOnce(serverUrl, events);
  }

  /** Whether `events` holds a removal before position `j`. */
  predicate RemovedBefore(events: seq<Event>, j: int)
    requires 0 <= j <= |events|
  {
    exists i :: 0 <= i < j && events[i] == Remove
  }

  /**
   * Runs a sequence of events against the view and records the effects of each.
   * The server is stopped at most once, by the first removal; after any removal no
   * fetch is issued; before it, every load fetches the entry page from the server.
   */
  method Run(l: ServerSlot, events: seq<Event>) returns (final: ServerSlot, trace: seq<seq<Effect>>)
    ensures |trace| == |events|
    ensures forall j :: 0 <= j < |trace| ==> |trace[j]| <= 1
    ensures forall j :: 0 <= j < |trace| && StopServer in trace[j] ==>
      events[j] == Remove && l.server.Some? && !RemovedBefore(events, j)
    ensures forall i, j :: 0 <= i < j < |trace| && StopServer in trace[i] ==> StopServer !in trace[j]
    ensures forall j :: 0 <= j < |trace| && events[j] == Remove && l.server.Some? && !RemovedBefore(events, j) ==>
      trace[j] == [StopServer]
    ensures forall j :: 0 <= j < |trace| && RemovedBefore(events, j) ==> trace[j] == []
    ensures forall j :: 0 <= j < |trace| && l.server.Some? && !RemovedBefore(events, j) && events[j].Load? ==>
      trace[j] == [Fetch(FetchUrl(l.server.value, events[j].versionId))]
    ensures l.server.None? ==> forall j :: 0 <= j < |trace| ==> trace[j] == []
    ensures final.server.None? <==> l.server.None? || RemovedBefore(events, |events|)
  {
    final := l;
    trace := [];
    var k := 0;
    while k < |events|
      invariant 0 <= k <= |events|
      invariant |trace| == k
      invariant final.server.None? <==> l.server.None? || RemovedBefore(events, k)
      invariant final.server.Some? ==> final == l
      invariant forall j :: 0 <= j < k ==> |trace[j]| <= 1
      invariant forall j :: 0 <= j < k && StopServer in trace[j] ==>
        events[j] == Remove && l.server.Some? && !RemovedBefore(events, j)
      invariant forall j :: 0 <= j < k && RemovedBefore(events, j) ==> trace[j] == []
      invariant forall j :: 0 <= j < k && events[j] == Remove && l.server.Some? && !RemovedBefore(events, j) ==>
        trace[j] == [StopServer]
      invariant forall j :: 0 <= j < k && l.server.Some? && !RemovedBefore(events, j) && events[j].Load? ==>
        trace[j] == [Fetch(FetchUrl(l.server.value, events[j].versionId))]
      invariant l.server.None? ==> forall j :: 0 <= j < k ==> trace[j] == []
    {
      assert RemovedBefore(events, k + 1) <==> RemovedBefore(events, k) || events[k] == Remove;
      var next := Step(final, events[k]);
      final := next.0;
      trace := trace + [next.1];
      k := k + 1;
    }
    forall i, j | 0 <= i < j < |trace| && StopServer in trace[i]
      ensures StopServer !in trace[j]
    {
      assert RemovedBefore(events, j) by { assert events[i] == Remove; }
    }
  }
}

=== FILE: navigation.dfy ===
/**
 * The navigation-bar state machine of RealMiniAppView: the configuration fixed by
 * `init`, the step performed by every `refreshNavBar` call, and the handler that
 * the bar calls when the user taps back or forward.
 *
 * UIKit objects are reduced to flags: a bottom constraint is `None` when the view
 * holds nil for it and `Some(b)` when it exists with `isActive == b`; whether the
 * bar is a subview of the view is the flag `attached`.
 */
module Navigation {
  import opened Optional

  /** MiniAppNavigationVisibility. */
  datatype Visibility = Never | Auto | Always

  /** MiniAppNavigationAction. */
  datatype Action = Back | Forward

  /** The nav bar the view owns: none, the built-in MiniAppNavigationBar, or the host's view. */
  datatype NavBar = NoBar | DefaultBar | CustomBar

  /**
   * The navigation delegate as `refreshNavBar` sees it: nil, an object that is not
   * the nav bar, or the very object that serves as the nav bar.
   */
  datatype NavDelegate = NoDelegate | OtherDelegate | BarDelegate

  /**
   * The delegate handed to `init`: nil, the same object as `navigationView` (so nil
   * when no navigation view is given), or another object.
   */
  datatype DelegateArg = NoDelegateArg | NavigationViewAsDelegate | SeparateDelegate

  datatype NavState = NavState(
    visibility: Visibility,
    bar: NavBar,
    delegate: NavDelegate,
    standalone: Option<bool>,  // webViewBottomConstraintStandalone
    withNavBar: Option<bool>,  // webViewBottomConstraintWithNavBar
    attached: bool)            // the nav bar is a subview of the view
  {
    /** isNavBarCustom */
    predicate IsCustom() {
      bar == CustomBar
    }
  }

  /** What one `refreshNavBar` call produces: the new state and the two notifications. */
  datatype Refreshed = Refreshed(
    state: NavState,
    toDelegate: Option<seq<Action>>,  // navigationDelegate?.miniAppNavigation(canUse:)
    toBar: Option<seq<Action>>)       // nav.miniAppNavigation(canUse:)

  /** The web view's back/forward list, reduced to the number of entries on each side. */
  datatype History = History(backCount: nat, forwardCount: nat) {
    predicate CanGoBack() {
      backCount > 0
    }

    predicate CanGoForward() {
      forwardCount > 0
    }
  }

  /** A constraint is active only when it exists and its flag is set. */
  predicate Active(c: Option<bool>) {
    c == Some(true)
  }

  /** `c?.isActive = b`: assigning through a nil constraint does nothing. */
  function SetActive(c: Option<bool>, b: bool): (r: Option<bool>)
    ensures r.Some? <==> c.Some?
    ensures r.Some? ==> (Active(r) <==> b)
  {
    match c
    case None => None
    case Some(_) => Some(b)
  }

  function ActiveAnchors(s: NavState): (n: nat)
    ensures n <= 2
  {
    (if Active(s.standalone) then 1 else 0) + (if Active(s.withNavBar) then 1 else 0)
  }

  /** The layout invariant: the web view's bottom is pinned by exactly one constraint. */
  predicate ExactlyOneAnchor(s: NavState) {
    ActiveAnchors(s) == 1
  }

  /**
   * The shapes `init` can produce: a bar exists iff the visibility is not `Never`,
   * the standalone constraint always exists, the with-nav-bar constraint exists
   * exactly for the built-in bar, and only a custom bar can be the delegate.
   */
  predicate Configured(s: NavState) {
    && (s.bar == NoBar <==> s.visibility == Never)
    && s.standalone.Some?
    && (s.withNavBar.Some? <==> s.bar == DefaultBar)
    && (s.delegate == BarDelegate ==> s.bar == CustomBar)
    && (s.bar == NoBar ==> !s.attached)
  }

  /** The configuration part of a state, which `refreshNavBar` never changes. */
  predicate SameConfiguration(s: NavState, t: NavState) {
    && s.visibility == t.visibility
    && s.bar == t.bar
    && s.delegate == t.delegate
    && s.standalone.Some? == t.standalone.Some?
    && s.withNavBar.Some? == t.withNavBar.Some?
  }

  /**
   * `init`: choose the bar from the visibility and the optional `navigationView`,
   * create the standalone bottom constraint (active when created) and, unless the
   * bar is custom, pin the bar's top to the web view and deactivate the standalone one.
   */
  function Init(visibility: Visibility, navigationView: bool, delegate: DelegateArg): (s: NavState)
    ensures Configured(s)
    ensures s.visibility == visibility
    ensures s.bar != NoBar <==> visibility != Never
    ensures s.IsCustom() <==> visibility != Never && navigationView
    ensures s.withNavBar.Some? <==> visibility != Never && !navigationView
    ensures s.delegate == NoDelegate <==>
      delegate == NoDelegateArg || (delegate == NavigationViewAsDelegate && !navigationView)
    ensures s.delegate == BarDelegate <==> delegate == NavigationViewAsDelegate && s.IsCustom()
    ensures visibility != Never ==> ExactlyOneAnchor(s)
    ensures visibility == Never ==> ActiveAnchors(s) == 0
    ensures s.bar == DefaultBar ==> Active(s.withNavBar) && !Active(s.standalone)
    ensures s.bar == CustomBar ==> Active(s.standalone)
    ensures !s.attached
  {
    var bar := if visibility == Never then NoBar else if navigationView then CustomBar else DefaultBar;
    var del :=
      match delegate
      case NoDelegateArg => NoDelegate
      case NavigationViewAsDelegate =>
        if !navigationView then NoDelegate else if bar == CustomBar then BarDelegate else OtherDelegate
      case SeparateDelegate => OtherDelegate;
    var standalone := Some(true);
    if bar != CustomBar then
      var withNavBar := if bar == NoBar then None else Some(true);
      NavState(visibility, bar, del, SetActive(standalone, false), withNavBar, false)
    else
      NavState(visibility, bar, del, standalone, None, false)
  }

  /** The actions offered to the delegate and the bar, in the order they are appended. */
  function AllowedActions(canGoBack: bool, canGoForward: bool, visibility: Visibility): (r: seq<Action>)
    ensures Back in r <==> canGoBack || visibility == Always
    ensures Forward in r <==> canGoForward || visibility == Always
    ensures forall i, j :: 0 <= i < j < |r| ==> r[i] != r[j]
    ensures forall i, j :: 0 <= i < |r| && 0 <= j < |r| && r[i] == Forward && r[j] == Back ==> j < i
  {
    (if canGoBack || visibility == Always then [Back] else [])
    + (if canGoForward || visibility == Always then [Forward] else [])
  }

  /**
   * `refreshNavBar`: compute the allowed actions, tell the delegate, then either
   * hide the bar (nothing to offer and a bar is expected) or show it.
   */
  function Refresh(s: NavState, canGoBack: bool, canGoForward: bool): (r: Refreshed)
    ensures SameConfiguration(s, r.state)
    ensures s.delegate != NoDelegate ==> r.toDelegate == Some(AllowedActions(canGoBack, canGoForward, s.visibility))
    ensures s.delegate == NoDelegate ==> r.toDelegate.None?
    ensures r.toBar.Some? ==> r.toBar == Some(AllowedActions(canGoBack, canGoForward, s.visibility))
    ensures r.toBar.Some? <==>
      && s.bar != NoBar
      && s.delegate != BarDelegate
      && (|AllowedActions(canGoBack, canGoForward, s.visibility)| > 0 || s.visibility == Never)
    ensures Configured(s) ==> Configured(r.state) && ExactlyOneAnchor(r.state)
    ensures Configured(s) ==> (Active(r.state.withNavBar) <==> r.state.attached && s.bar == DefaultBar)
    ensures Configured(s) ==>
      (r.state.attached <==> s.visibility != Never && |AllowedActions(canGoBack, canGoForward, s.visibility)| > 0)
  {
    var actions := AllowedActions(canGoBack, canGoForward, s.visibility);
    var toDelegate := if s.delegate == NoDelegate then None else Some(actions);
    if |actions| == 0 && s.visibility != Never then
      var hidden := s.(standalone := SetActive(s.standalone, s.visibility == Auto),
                       withNavBar := SetActive(s.withNavBar, s.visibility == Always),
                       attached := false);
      Refreshed(hidden, toDelegate, None)
    else if s.bar != NoBar then
      var toBar := if s.delegate != BarDelegate then Some(actions) else None;
      if s.visibility != Never then
        var shown := s.(attached := true,
                        standalone := SetActive(s.standalone, s.IsCustom()),
                        withNavBar := SetActive(s.withNavBar, !s.IsCustom()));
        Refreshed(shown, toDelegate, toBar)
      else
        Refreshed(s, toDelegate, toBar)
    else
      var standaloneOnly := s.(withNavBar := SetActive(s.withNavBar, false),
                               standalone := SetActive(s.standalone, true));
      Refreshed(standaloneOnly, toDelegate, None)
  }

  /** The state after a `refreshNavBar` call per navigation, first to last. */
  function RefreshAll(s: NavState, histories: seq<History>): NavState
    decreases |histories|
  {
    if |histories| == 0 then s
    else
      var h := histories[0];
      RefreshAll(Refresh(s, h.CanGoBack(), h.CanGoForward()).state, histories[1..])
  }

  /** Exactly one anchor after every refresh, and the configuration is kept, however many refreshes run. */
  lemma {:induction false} RefreshAllKeepsOneAnchor(s: NavState, histories: seq<History>)
    requires Configured(s)
    requires |histories| > 0
    ensures Configured(RefreshAll(s, histories))
    ensures SameConfiguration(s, RefreshAll(s, histories))
    ensures ExactlyOneAnchor(RefreshAll(s, histories))
    decreases |histories|
  {
    var h := histories[0];
    var next := Refresh(s, h.CanGoBack(), h.CanGoForward()).state;
    if |histories| > 1 {
      RefreshAllKeepsOneAnchor(next, histories[1..]);
    }
  }

  /** From every configuration `init` produces, any non-empty run of refreshes leaves exactly one anchor. */
  lemma InitThenRefreshesKeepOneAnchor(
    visibility: Visibility, navigationView: bool, delegate: DelegateArg, histories: seq<History>)
    requires |histories| > 0
    ensures ExactlyOneAnchor(RefreshAll(Init(visibility, navigationView, delegate), histories))
    ensures RefreshAll(Init(visibility, navigationView, delegate), histories).bar != NoBar <==> visibility != Never
  {
    RefreshAllKeepsOneAnchor(Init(visibility, navigationView, delegate), histories);
  }

  /** Under `Always` the bar is attached after every refresh, whatever the history. */
  lemma AlwaysAttached(s: NavState, canGoBack: bool, canGoForward: bool)
    requires Configured(s) && s.visibility == Always
    ensures Refresh(s, canGoBack, canGoForward).state.attached
    ensures AllowedActions(canGoBack, canGoForward, s.visibility) == [Back, Forward]
  {
  }

  /** Under `Never` there is no bar to attach, and only the standalone anchor is active. */
  lemma NeverAttached(s: NavState, canGoBack: bool, canGoForward: bool)
    requires Configured(s) && s.visibility == Never
    ensures !Refresh(s, canGoBack, canGoForward).state.attached
    ensures Refresh(s, canGoBack, canGoForward).toBar.None?
    ensures Active(Refresh(s, canGoBack, canGoForward).state.standalone)
  {
  }

  /** Under `Auto` with no history the bar is hidden and the web view fills to the bottom. */
  lemma AutoWithoutHistoryHides(s: NavState)
    requires Configured(s) && s.visibility == Auto
    ensures AllowedActions(false, false, s.visibility) == []
    ensures !Refresh(s, false, false).state.attached
    ensures Active(Refresh(s, false, false).state.standalone)
  {
  }

  /** The web view's `goBack` / `goForward`: a no-op when there is nowhere to go. */
  function Go(h: History, action: Action): (h': History)
    ensures h'.backCount + h'.forwardCount == h.backCount + h.forwardCount
  {
    match action
    case Back => if h.CanGoBack() then History(h.backCount - 1, h.forwardCount + 1) else h
    case Forward => if h.CanGoForward() then History(h.backCount + 1, h.forwardCount - 1) else h
  }

  /**
   * `miniAppNavigationBar(didTriggerAction:)`: read the capability, then navigate;
   * the answer is the capability as it was before the navigation.
   */
  function TriggerAction(h: History, action: Action): (r: (bool, History))
    ensures r.0 <==> r.1 != h
    ensures r.1 == Go(h, action)
  {
    var canDo := match action
      case Back => h.CanGoBack()
      case Forward => h.CanGoForward();
    (canDo, Go(h, action))
  }

  /** Going back then forward returns to the same history whenever going back was possible. */
  lemma BackThenForward(h: History)
    requires TriggerAction(h, Back).0
    ensures TriggerAction(TriggerAction(h, Back).1, Forward) == (true, h)
  {
  }

  /**
   * The answer reflects the history before the action: with a single entry behind,
   * `Back` answers true although going back again is then impossible.
   */
  lemma AnswerIsCapabilityBefore()
    ensures TriggerAction(History(1, 0), Back).0
    ensures !TriggerAction(History(1, 0), Back).1.CanGoBack()
  {
  }
}

=== FILE: optional.dfy ===
/** Swift optionals, as the view's possibly-nil references are modelled. */
module Optional {

  datatype Option<+T> = None | Some(value: T)
}

=== FILE: scheme_gate.dfy ===
/**
 * The navigation policy gate of RealMiniAppView: `webView(_:decidePolicyFor:)`
 * and `validateScheme`. Calls of the decision handler and of `UIApplication.open`
 * are recorded as one list of effects, in call order.
 */
module SchemeGate {
  import opened Optional

  /** A request URL: its text and its scheme, nil when the URL has none. */
  datatype Url = Url(text: string, scheme: Option<string>)

  /** WKNavigationActionPolicy. */
  datatype Policy = Allow | Cancel

  /** One call made while deciding: the URL handed to the system, or the decision handler's call. */
  datatype Effect = OpenExternally(url: Url) | Decide(policy: Policy)

  /** The raw value of MiniAppSupportedSchemes.tel, the only scheme handed to the system. */
  const TelScheme: string := "tel"

  /** The decision handler is called exactly once, as the last effect, with `p`. */
  predicate DecidedOnceWith(effects: seq<Effect>, p: Policy) {
    && |effects| > 0
    && effects[|effects| - 1] == Decide(p)
    && forall i :: 0 <= i < |effects| - 1 ==> !effects[i].Decide?
  }

  /**
   * `validateScheme`: a `tel` URL is opened by the system and then the navigation
   * is cancelled; every other scheme is allowed. The scheme is force-unwrapped.
   */
  function ValidateScheme(url: Url): (effects: seq<Effect>)
    requires url.scheme.Some?
    ensures url.scheme.value == TelScheme ==> DecidedOnceWith(effects, Cancel)
    ensures url.scheme.value != TelScheme ==> DecidedOnceWith(effects, Allow)
    ensures OpenExternally(url) in effects <==> url.scheme.value == TelScheme
    ensures forall i :: 0 <= i < |effects| && effects[i].OpenExternally? ==> i == 0 && effects[i].url == url
  {
    if url.scheme.value == TelScheme then [OpenExternally(url), Decide(Cancel)] else [Decide(Allow)]
  }

  /** `webView(_:decidePolicyFor:)`: a navigation without a URL is cancelled. */
  function DecidePolicy(request: Option<Url>): (effects: seq<Effect>)
    requires request.Some? ==> request.value.scheme.Some?
    ensures request.None? ==> effects == [Decide(Cancel)]
    ensures request.Some? ==> effects == ValidateScheme(request.value)
  {
    match request
    case None => [Decide(Cancel)]
    case Some(url) => ValidateScheme(url)
  }

  /**
   * The gate's decision table: the decision handler is called exactly once, last;
   * it allows iff there is a URL whose scheme is not `tel`; the system opens a URL
   * at most once, only the request's own `tel` URL, before the cancel.
   */
  lemma DecisionTable(request: Option<Url>)
    requires request.Some? ==> request.value.scheme.Some?
    ensures var effects := DecidePolicy(request);
      DecidedOnceWith(effects, Allow) || DecidedOnceWith(effects, Cancel)
    ensures DecidedOnceWith(DecidePolicy(request), Allow) <==>
      request.Some? && request.value.scheme.value != TelScheme
    ensures |DecidePolicy(request)| <= 2
    ensures DecidePolicy(request)[0].OpenExternally? <==>
      request.Some? && request.value.scheme.value == TelScheme
    ensures DecidePolicy(request)[0].OpenExternally? ==>
      DecidePolicy(request) == [OpenExternally(request.value), Decide(Cancel)]
  {
  }

  /** Concrete cases: `tel:` is handed off then cancelled, `https:` is allowed, a missing URL is cancelled. */
  lemma ExampleDecisions()
    ensures DecidePolicy(Some(Url("tel:123", Some("tel")))) == [OpenExternally(Url("tel:123", Some("tel"))), Decide(Cancel)]
    ensures DecidePolicy(Some(Url("https://example.com", Some("https")))) == [Decide(Allow)]
    ensures DecidePolicy(None) == [Decide(Cancel)]
  {
  }
}

=== FILE: trust.dfy ===
/**
 * The authentication-challenge answers of RealMiniAppView: the URLSession
 * delegate used for the initial page fetch and the WKWebView delegate used while
 * the page loads. The completion handler is recorded as the list of its calls.
 */
module Trust {
  import opened Optional

  /** URLSession.AuthChallengeDisposition (the cases the view answers with). */
  datatype Disposition = UseCredential | PerformDefaultHandling | CancelAuthenticationChallenge

  /** An opaque SecTrust object presented by the server. */
  type TrustRef = string

  /** URLCredential: one built from a server trust, or one found in the credential storage. */
  datatype Credential = TrustCredential(trust: TrustRef) | StoredCredential(name: string)

  /**
   * URLAuthenticationChallenge: whether the protection space's authentication
   * method is server trust, its server trust (nil for other methods, usually),
   * and the number of earlier failed attempts.
   */
  datatype Challenge = Challenge(serverTrustMethod: bool, serverTrust: Option<TrustRef>, previousFailureCount: int)

  /** One call of the completion handler. */
  datatype Answer = Answer(disposition: Disposition, credential: Option<Credential>)

  /**
   * `urlSession(_:didReceive:completionHandler:)`. `storedDefault` is what the
   * session's credential storage holds as default credential for the protection
   * space (nil when the storage itself is nil). The server trust of a server-trust
   * challenge is force-unwrapped.
   */
  function SessionChallenge(c: Challenge, storedDefault: Option<Credential>): (calls: seq<Answer>)
    requires c.serverTrustMethod ==> c.serverTrust.Some?
    ensures |calls| == 1
    ensures calls[0].disposition == UseCredential ==> calls[0].credential.Some?
    ensures c.serverTrustMethod ==> calls[0] == Answer(UseCredential, Some(TrustCredential(c.serverTrust.value)))
    ensures !c.serverTrustMethod && c.previousFailureCount > 0 ==>
      calls[0] == Answer(CancelAuthenticationChallenge, None)
    ensures !c.serverTrustMethod && c.previousFailureCount <= 0 && storedDefault.Some? ==>
      calls[0] == Answer(UseCredential, storedDefault)
    ensures !c.serverTrustMethod && c.previousFailureCount <= 0 && storedDefault.None? ==>
      calls[0] == Answer(PerformDefaultHandling, None)
  {
    var answer :=
      if c.serverTrustMethod then
        Answer(UseCredential, Some(TrustCredential(c.serverTrust.value)))
      else if c.previousFailureCount > 0 then
        Answer(CancelAuthenticationChallenge, None)
      else if storedDefault.Some? then
        Answer(UseCredential, storedDefault)
      else
        Answer(PerformDefaultHandling, None);
    [answer]
  }

  /**
   * `webView(_:didReceive:completionHandler:)`: always `useCredential`, with a
   * trust credential when the challenge carries a server trust and nil otherwise.
   * The trust-exception calls on the way have no effect visible here.
   */
  function WebViewChallenge(c: Challenge): (calls: seq<Answer>)
    ensures |calls| == 1
    ensures calls[0].disposition == UseCredential
    ensures calls[0].credential.Some? <==> c.serverTrust.Some?
    ensures c.serverTrust.Some? ==> calls[0].credential == Some(TrustCredential(c.serverTrust.value))
  {
    match c.serverTrust
    case None => [Answer(UseCredential, None)]
    case Some(t) => [Answer(UseCredential, Some(TrustCredential(t)))]
  }

  /**
   * The session delegate never blanket-accepts: apart from server trust, it uses a
   * credential only on the first attempt and only one the storage already holds,
   * and after a failure it always cancels.
   */
  lemma SessionUsesOnlyKnownCredentials(c: Challenge, storedDefault: Option<Credential>)
    requires c.serverTrustMethod ==> c.serverTrust.Some?
    ensures var a := SessionChallenge(c, storedDefault)[0];
      a.disposition == UseCredential <==> c.serverTrustMethod || (c.previousFailureCount <= 0 && storedDefault.Some?)
    ensures var a := SessionChallenge(c, storedDefault)[0];
      a.disposition == UseCredential && !c.serverTrustMethod ==> a.credential == storedDefault
    ensures var a := SessionChallenge(c, storedDefault)[0];
      a.disposition == CancelAuthenticationChallenge <==> !c.serverTrustMethod && c.previousFailureCount > 0
  {
  }

  /** On a server-trust challenge both delegates give the same answer. */
  lemma DelegatesAgreeOnServerTrust(c: Challenge, storedDefault: Option<Credential>)
    requires c.serverTrustMethod && c.serverTrust.Some?
    ensures SessionChallenge(c, storedDefault) == WebViewChallenge(c)
  {
  }

  /**
   * Unlike the session delegate, the web-view delegate can answer `useCredential`
   * with a nil credential: on any challenge that carries no server trust.
   */
  lemma WebViewMayUseNilCredential()
    ensures WebViewChallenge(Challenge(false, None, 3)) == [Answer(UseCredential, None)]
    ensures SessionChallenge(Challenge(false, None, 3), None) == [Answer(CancelAuthenticationChallenge, None)]
  {
  }
}
